=== FILE: README.md ===
# Telecom churn prediction: a Dafny model

This project models the logic of a small telecom churn application. It has two parts.

The back end is a Python prediction endpoint behind an Express proxy. The endpoint takes a
customer record with three numeric fields and six categorical fields. It one-hot encodes the
record: each categorical field `f` with value `v` becomes an indicator column `f_v` set to 1,
and the numbers keep their own columns. It then aligns the encoded row with the ordered
feature list the classifier was trained on. Listed columns the row lacks are added as 0, and
unlisted columns are dropped. Finally it scores the row and compares the churn probability
with the fixed threshold 0.355. Before a request reaches the endpoint, an Express validator
rejects it with status 400 if one of the nine fields is `undefined`. The repository also
declares a Mongoose schema for the same record, with closed enumerations for the six
categorical fields.

The front end is an Angular dashboard. It computes headline statistics and chart series from
a list of customers, and its navigation bar picks a page title from the current URL.

Modules:

- `Fields`: the nine request fields, their JSON names and their declaration order.
- `Json`: parsed request bodies, where an absent key reads as `undefined`.
- `Encoding`: the typed record and its one-hot encoding.
- `Alignment`: the fill loop, the projection onto the feature list, and the aligned vector.
- `Inference`: the threshold, rounding to four places, and the endpoint's response.
- `Middleware`: the ordered presence check.
- `Schema`: the persistence schema as a validator, and which columns a valid record produces.
- `Folds`: filtering, counting and summing, with the counting facts the dashboard needs.
- `Dashboard`: the statistics and the arrays passed to four charts.
- `Navbar`: the URL-to-title rule and how the title evolves over router events.

The classifier is a parameter of `Inference.Predict`. It is a function from the aligned vector
to a probability in [0, 1], standing for `predict_proba(...)[0][1]`. The feature list is also a
parameter. Both are loaded once at startup and never change, so `Predict` is a pure function:
identical inputs give identical responses.

Three consequences of the code are worth stating:

- The decision uses the unrounded probability, and the response reports the rounded one
  (`Back-end/app.py:46,50`). So an unrounded 0.35504 gives prediction 1 with a reported
  probability of exactly 0.355, equal to the threshold. The reported pair therefore does not
  satisfy "prediction = 1 iff probability > threshold".
  `Inference.RoundedProbabilityCanEqualThreshold` proves this.
- The Python endpoint checks only the types of the record's fields, not its category values.
  A category value outside the schema's enumerations produces an indicator column that is
  missing from a feature list built from those enumerations. Such a column is dropped
  (`Alignment.ExtrasDropped`), so that field contributes all zeros.
- An indicator column `field_value` could in principle clash with a numeric column's name.
  With the fixed field names this cannot happen, because no field name contains `_`
  (`Encoding.ColumnsDistinct`).

## Model

| member | source | states |
|---|---|---|
| Encoding.EncodeFields | Back-end/app.py:36 | encoding fields one at a time gives one column per field (the field's own name with its number, or `field_value` with 1), nothing else, and no two fields share a column |
| Encoding.Encode | Back-end/app.py:32-36 | the encoded record has exactly nine columns: each numeric field under its own name with its value unchanged, and each categorical field `f` with value `v` as column `f_v` = 1 |
| Encoding.ColumnsDistinct | Back-end/app.py:36 | an indicator column never collides with a numeric column or with another field's indicator, whatever the values |
| Encoding.DummyInjective | Back-end/app.py:36 | within one field, the indicator column determines the category value |
| Alignment.FillMissing | Back-end/app.py:38-40 | after the fill loop the row has every listed column; existing cells are unchanged and every added cell is 0 |
| Alignment.Select | Back-end/app.py:42 | selecting listed columns succeeds exactly when all are present, giving them in list order with their values; otherwise it reports exactly the absent ones |
| Alignment.Align | Back-end/app.py:38-42 | fill then select never fails; the vector has the list's length and order; listed columns the row lacks are 0 and the others carry the row's value |
| Alignment.AlignedNames | Back-end/app.py:38-42 | the aligned vector's column sequence equals the feature list exactly |
| Alignment.ExtrasDropped | Back-end/app.py:42 | an encoded column that is not in the feature list does not appear in the aligned vector |
| Alignment.OnlyListedColumnsMatter | Back-end/app.py:38-42 | removing every unlisted column from the row beforehand gives the same aligned vector |
| Inference.Round4 | Back-end/app.py:50 | the rounded probability has at most four decimal places, lies within half a unit of the fourth place of the input, stays in [0, 1], and leaves four-place values unchanged; at an exact tie the last digit is even, as Python's `round` gives |
| Inference.Features | Back-end/app.py:34-42 | the vector passed to the classifier has one column per feature name, in the feature list's order |
| Inference.Predict | Back-end/app.py:31-52 | the threshold field is always 0.355; prediction is 0 or 1, and 1 exactly when the unrounded probability exceeds 0.355, so an unrounded 0.355 gives 0; the reported probability is the unrounded one rounded to four places half to even, in [0, 1] and within rounding distance of it |
| Inference.RoundedProbabilityCanEqualThreshold | Back-end/app.py:44-51 | an unrounded 0.35504 gives prediction 1 while the reported probability equals the threshold |
| Middleware.RequiredFields | Back-end/middleware/churn.middleware.js:2-12 | the checked keys are exactly "tenure", "MonthlyCharges", "TotalCharges", "InternetService", "OnlineSecurity", "OnlineBackup", "TechSupport", "Contract", "PaymentMethod", in that order |
| Middleware.FirstMissing | Back-end/middleware/churn.middleware.js:14-18 | the scan stops at the first undefined key, and every key before it is defined; it finds nothing exactly when all keys are defined |
| Middleware.ValidateChurnInput | Back-end/middleware/churn.middleware.js:1-21 | control passes on exactly when all nine fields are defined; otherwise the response is 400 with "<field> is required." for the first undefined field in order, and control does not pass on |
| Middleware.OnlyPresenceMatters | Back-end/middleware/churn.middleware.js:15 | two bodies that agree on which required keys are defined get the same outcome, so `null`, wrongly typed values and extra keys make no difference |
| Middleware.EmptyBodyNamesTenure | Back-end/middleware/churn.middleware.js:14-17 | an empty body is rejected naming `tenure`, the first required field |
| Schema.CheckPath | Back-end/models/churn.model.js:5-42 | a path passes exactly when it holds a number (numeric paths) or a string from its enumeration (string paths); a missing or `null` value fails as required; every failure names its path |
| Schema.CollectErrors | Back-end/models/churn.model.js:3-45 | the collected errors are empty exactly when every checked path passes; each failing path contributes its error; every collected error is the error of some failing path; if every path fails, each contributes one |
| Schema.Validate | Back-end/models/churn.model.js:3-45 | a document is accepted exactly when all nine paths pass; each failing path is reported, and every reported error comes from a failing path |
| Schema.ErrorsOnePerPath | Back-end/models/churn.model.js:3-45 | checking distinct fields reports each failing path at most once: no two collected errors name the same path |
| Schema.ValidateOnePerPath | Back-end/models/churn.model.js:3-45 | a document's errors name each failing path exactly once |
| Schema.MissingPathInvalid | Back-end/models/churn.model.js:5-42 | leaving out any of the nine paths makes the document invalid and reports that path as required |
| Schema.ValidNumbers | Back-end/models/churn.model.js:5-7 | a valid document holds numbers in `tenure`, `MonthlyCharges` and `TotalCharges` |
| Schema.ValidInternetService | Back-end/models/churn.model.js:8-12 | a valid document has `InternetService` in {"DSL", "Fiber optic", "No"} |
| Schema.ValidAddOns | Back-end/models/churn.model.js:13-27 | a valid document has `OnlineSecurity`, `OnlineBackup` and `TechSupport` each in {"No", "Yes", "No internet service"} |
| Schema.ValidContract | Back-end/models/churn.model.js:28-32 | a valid document has `Contract` in {"Month-to-month", "One year", "Two year"} |
| Schema.ValidPaymentMethod | Back-end/models/churn.model.js:33-42 | a valid document has `PaymentMethod` among the four listed methods |
| Schema.ValidIffWellTyped | Back-end/models/churn.model.js:3-45 | the schema accepts a document exactly when every one of the nine paths holds a number or an enumerated string as its type requires |
| Schema.SampleDocumentValid | Back-end/models/churn.model.js:3-45 | a complete document with three numbers and six enumerated strings is accepted |
| Schema.ValidPassesMiddleware | Back-end/middleware/churn.middleware.js:14-20 | a document the schema accepts passes the request validator |
| Schema.NullsPassMiddlewareOnly | Back-end/middleware/churn.middleware.js:15 | a body with all nine keys set to `null` passes the validator, yet the schema reports all nine paths as required |
| Schema.ValidRecordColumns | Back-end/models/churn.model.js:8-42 | encoding a record whose categories lie in the enumerations produces only numeric columns and indicators of enumerated values |
| Schema.ValidRecordIndicators | Back-end/app.py:36 | for a valid record and an enumerated value `v` of field `f`, column `f_v` is present exactly when `v` is the record's value |
| Schema.UnrelatedFeaturesAreZero | Back-end/app.py:38-40 | for a valid record, a feature that is not a domain column, or that is the indicator of a value the record does not have, is 0 in the aligned vector |
| Folds.Filter | Front-end/src/app/pages/dashboard-page/dashboard-page.component.ts:75 | a filter keeps exactly the elements that satisfy the predicate, and never more than the input |
| Folds.FilterMultiplicity | Front-end/src/app/pages/dashboard-page/dashboard-page.component.ts:75 | a filter keeps each satisfying element as often as it occurs in the input and drops every other element, so its length counts occurrences |
| Folds.PartitionCounts | Front-end/src/app/pages/dashboard-page/dashboard-page.component.ts:75-76 | two filters that split every element between them have lengths summing to the input's length |
| Folds.PartitionWithin | Front-end/src/app/pages/dashboard-page/dashboard-page.component.ts:165-171 | two disjoint filters whose union is a third filter count exactly as much as the third |
| Folds.DisjointCounts | Front-end/src/app/pages/dashboard-page/dashboard-page.component.ts:75-76 | two filters no element satisfies together, both inside a third, count no more than the third |
| Folds.CountMonotone | Front-end/src/app/pages/dashboard-page/dashboard-page.component.ts:91 | a stronger filter keeps no more elements |
| Folds.SumMonotone | Front-end/src/app/pages/dashboard-page/dashboard-page.component.ts:96-99 | with non-negative terms, a stronger filter sums to no more |
| Folds.SumBounds | Front-end/src/app/pages/dashboard-page/dashboard-page.component.ts:80-85 | a sum of terms within [lo, hi] lies within [n * lo, n * hi] |
| Dashboard.Average | Front-end/src/app/pages/dashboard-page/dashboard-page.component.ts:81 | the guarded average is 0 for no elements, and otherwise times the count gives the total |
| Dashboard.Percentage | Front-end/src/app/pages/dashboard-page/dashboard-page.component.ts:77 | the guarded percentage is 0 for an empty whole or an empty part, 100 when the part is the whole, lies in [0, 100], and otherwise times the whole gives 100 times the part |
| Dashboard.CalculateStats | Front-end/src/app/pages/dashboard-page/dashboard-page.component.ts:72-102 | active + churned and female + male are each at most the customer count; the churn rate is 0 for no customers and within [0, 100]; arpu is 0 without active customers and the average tenure is 0 without churned ones; new customers are at most the active ones; the customer delta is new minus churned |
| Dashboard.CountFacts | Front-end/src/app/pages/dashboard-page/dashboard-page.component.ts:75-92 | "No" and "Yes" churn filters are disjoint, as are "Female" and "Male"; new customers are a subset of the active ones |
| Dashboard.CountsCoverCustomers | Front-end/src/app/pages/dashboard-page/dashboard-page.component.ts:75-76 | when every churn flag is "Yes" or "No" and every gender "Female" or "Male", active + churned and female + male each equal the customer count |
| Dashboard.ActiveWomenCounts | Front-end/src/app/pages/dashboard-page/dashboard-page.component.ts:75-89 | when every customer is active and female, the active and female counts are the whole list and the churned and male counts are 0, so each count is of its own customers |
| Dashboard.NewCustomersAreShortTenure | Front-end/src/app/pages/dashboard-page/dashboard-page.component.ts:91-101 | when every customer is active with tenure at most 1, all are new, the customer delta is the customer count, and the revenue delta is their whole monthly revenue |
| Dashboard.AllChurnedRevenue | Front-end/src/app/pages/dashboard-page/dashboard-page.component.ts:91-101 | when every customer has churned, none is new, the customer delta is minus the customer count, and the revenue delta is minus their whole monthly revenue |
| Dashboard.ArpuWithinCharges | Front-end/src/app/pages/dashboard-page/dashboard-page.component.ts:79-81 | with active customers present, arpu lies between any bounds on the monthly charges of the active ("No") customers, whatever the churned customers pay |
| Dashboard.AvgTenureWithinTenures | Front-end/src/app/pages/dashboard-page/dashboard-page.component.ts:83-86 | with churned customers present, the average tenure lies between any bounds on the tenures of the churned ("Yes") customers, whatever the active customers' tenures |
| Dashboard.NetRevenueBelowActiveRevenue | Front-end/src/app/pages/dashboard-page/dashboard-page.component.ts:91-101 | with non-negative charges, the revenue delta is at most the monthly revenue of the active customers |
| Dashboard.GroupChurnRate | Front-end/src/app/pages/dashboard-page/dashboard-page.component.ts:109-119 | a tenure group's churn rate is within [0, 100]; it is 0 when the group is empty or none of its members churned, and 100 when every member of a non-empty group churned |
| Dashboard.ChurnRateByGroup | Front-end/src/app/pages/dashboard-page/dashboard-page.component.ts:104-120 | one rate per tenure group, in the order "<= 6 Months", "<= 12 Months", "> 12 Months"; each is within [0, 100], 0 when its group is empty or has no churned member, and 100 when its non-empty group churned entirely |
| Dashboard.PaymentChurn | Front-end/src/app/pages/dashboard-page/dashboard-page.component.ts:157-171 | one pair of bars per payment method, and for each method churned plus retained is at most the number of customers paying that way |
| Dashboard.PaymentChurnRoles | Front-end/src/app/pages/dashboard-page/dashboard-page.component.ts:164-171 | each method's "Yes" bar counts no more than the churned customers and its "No" bar no more than the active ones |
| Dashboard.PaymentChurnCovers | Front-end/src/app/pages/dashboard-page/dashboard-page.component.ts:164-171 | with every churn flag "Yes" or "No", a method's two bars together count exactly the customers paying that way |
| Dashboard.Insert | Front-end/src/app/pages/dashboard-page/dashboard-page.component.ts:214 | inserting into a strictly ascending sequence keeps it strictly ascending and adds exactly the new value |
| Dashboard.DistinctAscending | Front-end/src/app/pages/dashboard-page/dashboard-page.component.ts:214 | the distinct tenures come out strictly ascending, with exactly the input's values |
| Dashboard.Tenures | Front-end/src/app/pages/dashboard-page/dashboard-page.component.ts:214 | the mapped tenures are exactly the tenures of some customer |
| Dashboard.TechSupportByTenure | Front-end/src/app/pages/dashboard-page/dashboard-page.component.ts:213-218 | the tenures are strictly ascending with no duplicates and are exactly the customers' tenures; there is one count per tenure, and each count is at most the number of customers with that tenure, which is positive |
| Dashboard.TechSupportRoles | Front-end/src/app/pages/dashboard-page/dashboard-page.component.ts:216-218 | each point counts no more than the customers with tech support; it counts every customer of its tenure when everyone has support, and 0 when nobody has |
| Dashboard.ChurnByInternetService | Front-end/src/app/pages/dashboard-page/dashboard-page.component.ts:308-313 | one bar per service, and the three churn counts together are at most the churned customers |
| Dashboard.InternetChurnRoles | Front-end/src/app/pages/dashboard-page/dashboard-page.component.ts:310-313 | each bar counts no more than the customers of its own service and no more than the churned customers |
| Dashboard.InternetChurnCovers | Front-end/src/app/pages/dashboard-page/dashboard-page.component.ts:310-313 | when every churned customer has one of the three services, the three bars together count exactly the churned customers |
| Navbar.IncludesIffOccurs | Front-end/src/app/shared/components/navbar/navbar.component.ts:18 | the left-to-right substring scan succeeds exactly when the substring occurs at some position |
| Navbar.TitleFor | Front-end/src/app/shared/components/navbar/navbar.component.ts:18-23 | a URL in which "dashboard" occurs at some position gives "Dashboard", even if "model" also occurs; one with "model" but no "dashboard" gives "Model"; any other gives "Telecom Project" |
| Navbar.TitleFollowsLastNavigation | Front-end/src/app/shared/components/navbar/navbar.component.ts:16-25 | after any event stream, the title is the one for the URL of the last completed navigation |
| Navbar.TitleEmptyBeforeNavigation | Front-end/src/app/shared/components/navbar/navbar.component.ts:11-17 | the title starts as "" and stays so until a navigation completes |
| Navbar.TitleRange | Front-end/src/app/shared/components/navbar/navbar.component.ts:11-23 | the title is always one of "", "Dashboard", "Model" or "Telecom Project" |

## Left out

- Loading the classifier and the feature list (`Back-end/app.py:8-15`) is startup file I/O. Both are parameters of `Inference.Predict`.
- The classifier's internals are an opaque trained artifact. It is a function-valued parameter returning a probability in [0, 1].
- Floating point is left out. `Inference.Round4` rounds the exact real value half to even, which is how Python rounds the exact value of a double. Dashboard sums and averages are exact reals, so the order of a `reduce` does not matter.
- Parsing the request into the typed record is done by the web framework (`Back-end/app.py:17-29`). `Encoding.Record` is the parsed result. `pandas` stores indicator cells as booleans; the model uses the number 1.
- The Express app, routes, the controller's proxy call to the Python service, the database connection and `customer.model.js` are I/O plumbing.
- Schema.CheckPath: Mongoose's type casting is not modelled. A number path accepts only a JSON number and a string path only a JSON string; Mongoose would first try to convert, for example "12" to 12. This is stricter than the source for convertible values.
- The Angular HTTP services, app shell, route table and the model page are UI glue. The model page colours a gauge with a cut-off of 0.5, while the back end decides at 0.355; that page is not modelled.
- All Chart.js construction and the `console.log` in `loadChart` are rendering and logging. Only the arrays fed to the charts are modelled.
- `loadRevenueChart` (`dashboard-page.component.ts:255-305`) is not part of this model. It sums monthly charges per contract type.
- `Dashboard.Customer` holds only the fields the dashboard reads. `tenure` and `MonthlyCharges` are arbitrary real numbers, as the source's `number` fields are (`Front-end/src/app/shared/models/icustomer.ts:8,21`), and are always present. NaN is not modelled, so the `|| 0` fallbacks for missing or NaN values are the identity here. `_id` and `customerID` are left out. Two customers with equal remaining fields are equal values, and every count is a count of occurrences (`Folds.FilterMultiplicity`).
- Dashboard.CalculateStats: does not restate that the churn rate times the customer count is 100 times the churned count; `Dashboard.Percentage` states that for the value it is built from.
- Dashboard.GroupChurnRate: does not restate that the rate times the group size is 100 times the churned members; `Dashboard.Percentage` states that for the value it is built from.
- Dashboard.ChurnRateByGroup: does not restate that each rate times its group's size is 100 times the group's churned members, for the same reason; each rate is `Dashboard.GroupChurnRate` of its group, whose value is fixed by `Dashboard.Percentage`.
- Encoding.Encode: tenure is assumed to fit the 64-bit integer column `pandas` builds for it (`Back-end/app.py:34`). An integer outside that range would make an object column that `get_dummies` one-hot encodes as `tenure_<n>`, after which the numeric `tenure` feature is filled with 0; that case is not modelled.
- The router subscription's lifecycle (subscribing in `ngOnInit`, never unsubscribing) is framework behaviour. The model folds the title over a finite sequence of router events.

=== FILE: alignment.dfy ===
/** Aligning an encoded row with the model's feature list: every listed
    column missing from the row is added as 0, then the row is projected onto
    the list, in list order. */
module Alignment {
  import opened Encoding

  datatype Column = Column(name: string, value: real)

  /** A projection either succeeds or fails like pandas' indexing, naming the
      requested columns the frame does not have. */
  datatype Projection =
    | Projected(columns: seq<Column>)
    | KeyError(missing: seq<string>)

  /** The fill loop: walk `names` in order, adding each absent column as 0. */
  function FillMissing(row: Row, names: seq<string>): (filled: Row)
    ensures filled.Keys == row.Keys + set n | n in names
    ensures forall k :: k in row ==> filled[k] == row[k]
    ensures forall k :: k in filled && k !in row ==> filled[k] == 0.0
    decreases |names|
  {
    if names == [] then row
    else
      var next := if names[0] in row then row else row[names[0] := 0.0];
      var rest := FillMissing(next, names[1..]);
      assert (set n | n in names) == {names[0]} + set n | n in names[1..];
      rest
  }

  /** Indexing a frame by a list of column names. */
  function Select(row: Row, names: seq<string>): (p: Projection)
    ensures p.Projected? <==> forall n :: n in names ==> n in row
    ensures p.Projected? ==>
      && |p.columns| == |names|
      && forall i :: 0 <= i < |names| ==> p.columns[i] == Column(names[i], row[names[i]])
    ensures p.KeyError? ==>
      && (forall n :: n in p.missing <==> n in names && n !in row)
      && |p.missing| > 0
  {
    if names == [] then Projected([])
    else
      var head := names[0];
      match Select(row, names[1..])
      case Projected(cs) =>
        if head in row then Projected([Column(head, row[head])] + cs) else KeyError([head])
      case KeyError(ms) =>
        if head in row then KeyError(ms) else KeyError([head] + ms)
  }

  /** Fill then project: the aligned feature vector. The projection cannot
      fail, the column sequence is exactly `names`, listed columns the row
      lacks are 0, and the rest carry the row's value. */
  function Align(row: Row, names: seq<string>): (p: Projection)
    ensures p.Projected?
    ensures |p.columns| == |names|
    ensures forall i :: 0 <= i < |names| ==> p.columns[i].name == names[i]
    ensures forall i :: 0 <= i < |names| && names[i] in row ==> p.columns[i].value == row[names[i]]
    ensures forall i :: 0 <= i < |names| && names[i] !in row ==> p.columns[i].value == 0.0
  {
    Select(FillMissing(row, names), names)
  }

  /** The names of a column sequence, in order. */
  function Names(cs: seq<Column>): (ns: seq<string>)
    ensures |ns| == |cs|
    ensures forall i :: 0 <= i < |cs| ==> ns[i] == cs[i].name
  {
    if cs == [] then [] else [cs[0].name] + Names(cs[1..])
  }

  /** The aligned vector's column sequence is the feature list itself. */
  lemma AlignedNames(row: Row, names: seq<string>)
    ensures Names(Align(row, names).columns) == names
  {
  }

  /** Encoded columns that are not listed never reach the aligned vector. */
  lemma ExtrasDropped(row: Row, names: seq<string>, extra: string)
    requires extra in row && extra !in names
    ensures forall c :: c in Align(row, names).columns ==> c.name != extra
  {
    var cs := Align(row, names).columns;
    forall c | c in cs ensures c.name != extra {
      var i :| 0 <= i < |cs| && cs[i] == c;
      assert c.name == names[i];
    }
  }

  /** Only the listed part of the row matters: dropping every unlisted column
      beforehand yields the same vector. */
  lemma OnlyListedColumnsMatter(row: Row, names: seq<string>)
    ensures Align(row, names) == Align(map k | k in row && k in names :: row[k], names)
  {
    var restricted := map k | k in row && k in names :: row[k];
    var a, b := Align(row, names).columns, Align(restricted, names).columns;
    forall i | 0 <= i < |names| ensures a[i] == b[i] {
      assert names[i] in row <==> names[i] in restricted;
    }
  }
}

=== FILE: dashboard.dfy ===
/** The dashboard's figures: the headline statistics and the arrays fed to
    the churn-by-tenure-group, payment-method, tech-support and
    churn-by-internet-service charts. */
module Dashboard {
  import opened Folds

  /** The customer fields the dashboard reads. */
  datatype Customer = Customer(
    gender: string,
    tenure: real,
    internetService: string,
    techSupport: string,
    paymentMethod: string,
    monthlyCharges: real,
    churn: string,
    tenureGroup: string)

  predicate IsActive(c: Customer) { c.churn == "No" }
  predicate IsChurned(c: Customer) { c.churn == "Yes" }
  predicate IsFemale(c: Customer) { c.gender == "Female" }
  predicate IsMale(c: Customer) { c.gender == "Male" }
  /** A customer in their first month who has not left. */
  predicate IsNew(c: Customer) { c.tenure <= 1.0 && c.churn == "No" }

  function Charges(c: Customer): real { c.monthlyCharges }
  function TenureMonths(c: Customer): real { c.tenure }

  /** `count > 0 ? part / count : 0`. */
  function Average(total: real, count: nat): (a: real)
    ensures count == 0 ==> a == 0.0
    ensures count > 0 ==> a * count as real == total
  {
    if count > 0 then total / count as real else 0.0
  }

  /** `total > 0 ? (part / total) * 100 : 0`. */
  function Percentage(part: nat, total: nat): (pct: real)
    requires part <= total
    ensures total == 0 ==> pct == 0.0
    ensures 0.0 <= pct <= 100.0
    ensures total > 0 ==> pct * total as real == part as real * 100.0
    ensures part == 0 ==> pct == 0.0
    ensures 0 < part == total ==> pct == 100.0
  {
    if total > 0 then (part as real / total as real) * 100.0 else 0.0
  }

  datatype Stats = Stats(
    activeCustomers: nat,
    churnedCustomers: nat,
    churnRate: real,
    arpu: real,
    avgTenure: real,
    femaleCount: nat,
    maleCount: nat,
    newCustomers: nat,
    netCustomerChange: int,
    netRevenueChange: real)

  /** The headline statistics. */
  function CalculateStats(cs: seq<Customer>): (s: Stats)
    ensures s.activeCustomers + s.churnedCustomers <= |cs|
    ensures |cs| == 0 ==> s.churnRate == 0.0
    ensures 0.0 <= s.churnRate <= 100.0
    ensures s.activeCustomers == 0 ==> s.arpu == 0.0
    ensures s.churnedCustomers == 0 ==> s.avgTenure == 0.0
    ensures s.femaleCount + s.maleCount <= |cs|
    ensures s.newCustomers <= s.activeCustomers
    ensures s.netCustomerChange == s.newCustomers - s.churnedCustomers
  {
    var active := |Filter(cs, IsActive)|;
    var churned := |Filter(cs, IsChurned)|;
    var newcomers := |Filter(cs, IsNew)|;
    CountFacts(cs);
    Stats(
      active,
      churned,
      Percentage(churned, |cs|),
      Arpu(cs),
      AverageChurnedTenure(cs),
      |Filter(cs, IsFemale)|,
      |Filter(cs, IsMale)|,
      newcomers,
      newcomers - churned,
      NetRevenueChange(cs))
  }

  /** Average monthly charge of the active customers. */
  function Arpu(cs: seq<Customer>): real {
    var active := Filter(cs, IsActive);
    Average(Sum(active, Charges), |active|)
  }

  /** Average tenure of the churned customers. */
  function AverageChurnedTenure(cs: seq<Customer>): real {
    var churned := Filter(cs, IsChurned);
    Average(Sum(churned, TenureMonths), |churned|)
  }

  /** Monthly charges of new customers minus those of churned customers. */
  function NetRevenueChange(cs: seq<Customer>): real {
    Sum(Filter(cs, IsNew), Charges) - Sum(Filter(cs, IsChurned), Charges)
  }

  /** The disjoint and nested filters behind the headline counts. */
  lemma CountFacts(cs: seq<Customer>)
    ensures |Filter(cs, IsActive)| + |Filter(cs, IsChurned)| <= |cs|
    ensures |Filter(cs, IsFemale)| + |Filter(cs, IsMale)| <= |cs|
    ensures |Filter(cs, IsNew)| <= |Filter(cs, IsActive)|
  {
    DisjointCounts(cs, IsActive, IsChurned, _ => true);
    DisjointCounts(cs, IsFemale, IsMale, _ => true);
    CountMonotone(cs, IsNew, IsActive);
  }

  /** When every churn flag is "Yes" or "No" and every gender "Female" or
      "Male", the headline counts account for every customer. */
  lemma CountsCoverCustomers(cs: seq<Customer>)
    requires forall i :: 0 <= i < |cs| ==> cs[i].churn in {"Yes", "No"}
    requires forall i :: 0 <= i < |cs| ==> cs[i].gender in {"Female", "Male"}
    ensures CalculateStats(cs).activeCustomers + CalculateStats(cs).churnedCustomers == |cs|
    ensures CalculateStats(cs).femaleCount + CalculateStats(cs).maleCount == |cs|
  {
    PartitionCounts(cs, IsActive, IsChurned);
    PartitionCounts(cs, IsFemale, IsMale);
  }

  /** Each count is of its own customers: when everyone is an active
      woman, the active and female counts are everyone and the churned and
      male counts are zero. */
  lemma ActiveWomenCounts(cs: seq<Customer>)
    requires forall i :: 0 <= i < |cs| ==> cs[i].churn == "No" && cs[i].gender == "Female"
    ensures CalculateStats(cs).activeCustomers == CalculateStats(cs).femaleCount == |cs|
    ensures CalculateStats(cs).churnedCustomers == CalculateStats(cs).maleCount == 0
  {
    FilterAll(cs, IsActive);
    FilterAll(cs, IsFemale);
    FilterNone(cs, IsChurned);
    FilterNone(cs, IsMale);
  }

  /** New customers are the active ones in their first month: when every
      customer is such, all are new and the revenue delta is their whole
      monthly revenue. */
  lemma NewCustomersAreShortTenure(cs: seq<Customer>)
    requires forall i :: 0 <= i < |cs| ==> cs[i].tenure <= 1.0 && cs[i].churn == "No"
    ensures CalculateStats(cs).newCustomers == |cs|
    ensures CalculateStats(cs).netCustomerChange == |cs|
    ensures CalculateStats(cs).netRevenueChange == Sum(cs, Charges)
  {
    FilterAll(cs, IsNew);
    FilterNone(cs, IsChurned);
    assert CalculateStats(cs).netRevenueChange == NetRevenueChange(cs);
  }

  /** Lost revenue is the churned customers' charges: when everyone has
      churned, nobody is new and the revenue delta is minus their whole
      monthly revenue. */
  lemma AllChurnedRevenue(cs: seq<Customer>)
    requires forall i :: 0 <= i < |cs| ==> cs[i].churn == "Yes"
    ensures CalculateStats(cs).newCustomers == 0
    ensures CalculateStats(cs).netCustomerChange == -|cs|
    ensures CalculateStats(cs).netRevenueChange == -Sum(cs, Charges)
  {
    FilterNone(cs, IsNew);
    FilterAll(cs, IsChurned);
    assert CalculateStats(cs).netRevenueChange == NetRevenueChange(cs);
  }

  /** The average revenue per active customer lies within the range of the
      monthly charges. */
  lemma ArpuWithinCharges(cs: seq<Customer>, lo: real, hi: real)
    requires forall c :: c in cs && c.churn == "No" ==> lo <= c.monthlyCharges <= hi
    requires CalculateStats(cs).activeCustomers > 0
    ensures lo <= CalculateStats(cs).arpu <= hi
  {
    var active := Filter(cs, IsActive);
    forall c | c in active ensures lo <= Charges(c) <= hi {
      assert c in cs;
    }
    AverageWithin(active, Charges, lo, hi);
    assert CalculateStats(cs).arpu == Arpu(cs);
  }

  /** The average tenure of churned customers lies within the range of the
      tenures. */
  lemma AvgTenureWithinTenures(cs: seq<Customer>, lo: real, hi: real)
    requires forall c :: c in cs && c.churn == "Yes" ==> lo <= c.tenure <= hi
    requires CalculateStats(cs).churnedCustomers > 0
    ensures lo <= CalculateStats(cs).avgTenure <= hi
  {
    var churned := Filter(cs, IsChurned);
    forall c | c in churned ensures lo <= TenureMonths(c) <= hi {
      assert c in cs;
    }
    AverageWithin(churned, TenureMonths, lo, hi);
    assert CalculateStats(cs).avgTenure == AverageChurnedTenure(cs);
  }

  /** The average of terms within [lo, hi] is within [lo, hi]. */
  lemma AverageWithin(s: seq<Customer>, f: Customer -> real, lo: real, hi: real)
    requires s != []
    requires forall x :: x in s ==> lo <= f(x) <= hi
    ensures lo <= Average(Sum(s, f), |s|) <= hi
  {
    SumBounds(s, f, lo, hi);
    AverageBounds(Sum(s, f), |s|, lo, hi);
  }

  lemma AverageBounds(total: real, count: nat, lo: real, hi: real)
    requires count > 0 && count as real * lo <= total <= count as real * hi
    ensures lo <= Average(total, count) <= hi
  {
    var n := count as real;
    assert total / n * n == total;
  }

  /** With non-negative charges, the net revenue change never exceeds the
      monthly revenue of the active customers: new customers are active ones and lost revenue is never negative. */
  lemma NetRevenueBelowActiveRevenue(cs: seq<Customer>)
    requires forall c :: c in cs ==> c.monthlyCharges >= 0.0
    ensures CalculateStats(cs).netRevenueChange <= Sum(Filter(cs, IsActive), Charges)
  {
    var churned, newcomers := Filter(cs, IsChurned), Filter(cs, IsNew);
    assert CalculateStats(cs).netRevenueChange == NetRevenueChange(cs);
    SumMonotone(cs, IsNew, IsActive, Charges);
    NonNegativeSum(churned);
  }

  lemma {:induction false} NonNegativeSum(cs: seq<Customer>)
    requires forall c :: c in cs ==> c.monthlyCharges >= 0.0
    ensures Sum(cs, Charges) >= 0.0
  {
    if cs != [] {
      NonNegativeSum(cs[1..]);
      assert cs[0] in cs;
    }
  }

  // ---- Churn rate by tenure group ----

  const TenureGroups: seq<string> := ["<= 6 Months", "<= 12 Months", "> 12 Months"]

  function InGroup(group: string): Customer -> bool {
    (c: Customer) => c.tenureGroup == group
  }

  /** The churn rate of one tenure group, as a percentage of that group. */
  function GroupChurnRate(cs: seq<Customer>, group: string): (rate: real)
    ensures var members := Filter(cs, InGroup(group));
      && (|members| == 0 ==> rate == 0.0)
      && 0.0 <= rate <= 100.0
      && (Filter(members, IsChurned) == [] ==> rate == 0.0)
      && (members != [] && Filter(members, IsChurned) == members ==> rate == 100.0)
  {
    var members := Filter(cs, InGroup(group));
    Percentage(|Filter(members, IsChurned)|, |members|)
  }

  /** The bars of the churn-by-tenure-group chart. */
  function ChurnRateByGroup(cs: seq<Customer>): (rates: seq<real>)
    ensures |rates| == |TenureGroups|
    ensures forall i :: 0 <= i < |rates| ==> 0.0 <= rates[i] <= 100.0
    ensures forall i :: 0 <= i < |rates| && Filter(cs, InGroup(TenureGroups[i])) == [] ==> rates[i] == 0.0
    ensures forall i :: 0 <= i < |rates| ==>
      var members := Filter(cs, InGroup(TenureGroups[i]));
      && (Filter(members, IsChurned) == [] ==> rates[i] == 0.0)
      && (members != [] && Filter(members, IsChurned) == members ==> rates[i] == 100.0)
  {
    seq(|TenureGroups|, i requires 0 <= i < |TenureGroups| => GroupChurnRate(cs, TenureGroups[i]))
  }

  // ---- Churn by payment method ----

  const PaymentMethods: seq<string> :=
    ["Bank transfer (automatic)", "Credit card (automatic)", "Electronic check", "Mailed check"]

  function PaidWith(payment: string): Customer -> bool {
    (c: Customer) => c.paymentMethod == payment
  }

  function PaidWithChurn(payment: string, churn: string): Customer -> bool {
    (c: Customer) => c.paymentMethod == payment && c.churn == churn
  }

  datatype PaymentChart = PaymentChart(churnYes: seq<nat>, churnNo: seq<nat>)

  /** The two series of the payment-method chart. */
  function PaymentChurn(cs: seq<Customer>): (chart: PaymentChart)
    ensures |chart.churnYes| == |chart.churnNo| == |PaymentMethods|
    ensures forall i :: 0 <= i < |PaymentMethods| ==>
      chart.churnYes[i] + chart.churnNo[i] <= |Filter(cs, PaidWith(PaymentMethods[i]))|
  {
    var yes := seq(|PaymentMethods|, i requires 0 <= i < |PaymentMethods| =>
      |Filter(cs, PaidWithChurn(PaymentMethods[i], "Yes"))|);
    var no := seq(|PaymentMethods|, i requires 0 <= i < |PaymentMethods| =>
      |Filter(cs, PaidWithChurn(PaymentMethods[i], "No"))|);
    assert forall i :: 0 <= i < |PaymentMethods| ==> yes[i] + no[i] <= |Filter(cs, PaidWith(PaymentMethods[i]))| by {
      forall i | 0 <= i < |PaymentMethods|
        ensures yes[i] + no[i] <= |Filter(cs, PaidWith(PaymentMethods[i]))|
      {
        var m := PaymentMethods[i];
        DisjointCounts(cs, PaidWithChurn(m, "Yes"), PaidWithChurn(m, "No"), PaidWith(m));
      }
    }
    PaymentChart(yes, no)
  }

  /** The "Yes" series counts churned customers and the "No" series active
      ones. */
  lemma PaymentChurnRoles(cs: seq<Customer>, i: nat)
    requires i < |PaymentMethods|
    ensures PaymentChurn(cs).churnYes[i] <= |Filter(cs, IsChurned)|
    ensures PaymentChurn(cs).churnNo[i] <= |Filter(cs, IsActive)|
  {
    var m := PaymentMethods[i];
    assert PaymentChurn(cs).churnYes[i] == |Filter(cs, PaidWithChurn(m, "Yes"))|;
    assert PaymentChurn(cs).churnNo[i] == |Filter(cs, PaidWithChurn(m, "No"))|;
    CountMonotone(cs, PaidWithChurn(m, "Yes"), IsChurned);
    CountMonotone(cs, PaidWithChurn(m, "No"), IsActive);
  }

  /** With every churn flag "Yes" or "No", each method's two bars together
      count every customer paying that way. */
  lemma PaymentChurnCovers(cs: seq<Customer>, i: nat)
    requires i < |PaymentMethods|
    requires forall k :: 0 <= k < |cs| ==> cs[k].churn in {"Yes", "No"}
    ensures PaymentChurn(cs).churnYes[i] + PaymentChurn(cs).churnNo[i]
      == |Filter(cs, PaidWith(PaymentMethods[i]))|
  {
    var m := PaymentMethods[i];
    assert PaymentChurn(cs).churnYes[i] == |Filter(cs, PaidWithChurn(m, "Yes"))|;
    assert PaymentChurn(cs).churnNo[i] == |Filter(cs, PaidWithChurn(m, "No"))|;
    PartitionWithin(cs, PaidWithChurn(m, "Yes"), PaidWithChurn(m, "No"), PaidWith(m));
  }

  // ---- Tech support by tenure ----

  predicate StrictlyIncreasing(xs: seq<real>) {
    forall i, j :: 0 <= i < j < |xs| ==> xs[i] < xs[j]
  }

  /** Inserts `x` into a strictly increasing sequence, unless already there. */
  function Insert(sorted: seq<real>, x: real): (r: seq<real>)
    requires StrictlyIncreasing(sorted)
    ensures StrictlyIncreasing(r)
    ensures forall y :: y in r <==> y in sorted || y == x
  {
    if sorted == [] then [x]
    else if x < sorted[0] then [x] + sorted
    else if x == sorted[0] then sorted
    else
      var rest := Insert(sorted[1..], x);
      var r := [sorted[0]] + rest;
      forall i, j | 0 <= i < j < |r| ensures r[i] < r[j] {
        if i == 0 {
          assert r[j] == rest[j - 1] && rest[j - 1] in rest;
          if r[j] != x {
            var k :| 0 <= k < |sorted[1..]| && sorted[1..][k] == r[j];
            assert sorted[k + 1] == r[j];
          }
        } else {
          assert r[i] == rest[i - 1] && r[j] == rest[j - 1];
        }
      }
      r
  }

  /** `Array.from(new Set(xs)).sort((a, b) => a - b)`: the distinct values in
      ascending order. */
  function {:induction false} DistinctAscending(xs: seq<real>): (r: seq<real>)
    ensures StrictlyIncreasing(r)
    ensures forall y :: y in r <==> y in xs
  {
    if xs == [] then []
    else Insert(DistinctAscending(xs[..|xs| - 1]), xs[|xs| - 1])
  }

  /** `customers.map(c => c.tenure)`: the tenures that occur are exactly
      those of some customer. */
  function Tenures(cs: seq<Customer>): (ts: seq<real>)
    ensures forall t :: t in ts <==> exists c :: c in cs && c.tenure == t
  {
    var ts := seq(|cs|, i requires 0 <= i < |cs| => cs[i].tenure);
    forall t | t in ts ensures exists c :: c in cs && c.tenure == t {
      var k :| 0 <= k < |cs| && ts[k] == t;
      assert cs[k] in cs;
    }
    forall t | exists c :: c in cs && c.tenure == t ensures t in ts {
      var c :| c in cs && c.tenure == t;
      var k :| 0 <= k < |cs| && cs[k] == c;
      assert ts[k] == t;
    }
    ts
  }

  function HasTenure(t: real): Customer -> bool {
    (c: Customer) => c.tenure == t
  }

  function HasTenureWithSupport(t: real): Customer -> bool {
    (c: Customer) => c.tenure == t && c.techSupport == "Yes"
  }

  datatype TechSupportChart = TechSupportChart(tenures: seq<real>, counts: seq<nat>)

  predicate HasTechSupport(c: Customer) { c.techSupport == "Yes" }

  /** The tech-support-by-tenure line: one point per distinct tenure, in
      ascending order, counting the customers with that tenure and support. */
  function TechSupportByTenure(cs: seq<Customer>): (chart: TechSupportChart)
    ensures StrictlyIncreasing(chart.tenures)
    ensures forall t :: t in chart.tenures <==> exists c :: c in cs && c.tenure == t
    ensures |chart.counts| == |chart.tenures|
    ensures forall i :: 0 <= i < |chart.tenures| ==>
      0 < |Filter(cs, HasTenure(chart.tenures[i]))|
      && chart.counts[i] <= |Filter(cs, HasTenure(chart.tenures[i]))|
  {
    var ts := DistinctAscending(Tenures(cs));
    var counts := seq(|ts|, i requires 0 <= i < |ts| => |Filter(cs, HasTenureWithSupport(ts[i]))|);
    forall i | 0 <= i < |ts|
      ensures 0 < |Filter(cs, HasTenure(ts[i]))| && counts[i] <= |Filter(cs, HasTenure(ts[i]))|
    {
      assert ts[i] in ts;
      var c :| c in cs && c.tenure == ts[i];
      assert c in Filter(cs, HasTenure(ts[i]));
      CountMonotone(cs, HasTenureWithSupport(ts[i]), HasTenure(ts[i]));
    }
    TechSupportChart(ts, counts)
  }

  /** Each point counts customers of its tenure who have tech support: no
      more than all supported customers, all of that tenure when everyone
      has support, and none when nobody has. */
  lemma TechSupportRoles(cs: seq<Customer>, i: nat)
    requires i < |TechSupportByTenure(cs).tenures|
    ensures var chart := TechSupportByTenure(cs);
      chart.counts[i] <= |Filter(cs, HasTechSupport)|
    ensures var chart := TechSupportByTenure(cs);
      (forall k :: 0 <= k < |cs| ==> cs[k].techSupport == "Yes") ==>
        chart.counts[i] == |Filter(cs, HasTenure(chart.tenures[i]))|
    ensures (forall k :: 0 <= k < |cs| ==> cs[k].techSupport != "Yes") ==>
      TechSupportByTenure(cs).counts[i] == 0
  {
    var chart := TechSupportByTenure(cs);
    var t := chart.tenures[i];
    assert chart.counts[i] == |Filter(cs, HasTenureWithSupport(t))|;
    CountMonotone(cs, HasTenureWithSupport(t), HasTechSupport);
    if forall k :: 0 <= k < |cs| ==> cs[k].techSupport == "Yes" {
      FilterAgree(cs, HasTenureWithSupport(t), HasTenure(t));
    }
    if forall k :: 0 <= k < |cs| ==> cs[k].techSupport != "Yes" {
      FilterNone(cs, HasTenureWithSupport(t));
    }
  }

  // ---- Churn by internet service ----

  const InternetServices: seq<string> := ["DSL", "Fiber optic", "No"]

  function ChurnedWith(service: string): Customer -> bool {
    (c: Customer) => c.internetService == service && c.churn == "Yes"
  }

  /** The bars of the churn-by-internet-service chart: the three counts
      together never exceed the churned customers. */
  function ChurnByInternetService(cs: seq<Customer>): (counts: seq<nat>)
    ensures |counts| == |InternetServices|
    ensures counts[0] + counts[1] + counts[2] <= |Filter(cs, IsChurned)|
  {
    var counts := seq(|InternetServices|, i requires 0 <= i < |InternetServices| =>
      |Filter(cs, ChurnedWith(InternetServices[i]))|);
    DisjointCounts(cs, ChurnedWith("DSL"), ChurnedWith("Fiber optic"), DslOrFiberChurned());
    DisjointCounts(cs, DslOrFiberChurned(), ChurnedWith("No"), IsChurned);
    counts
  }

  function DslOrFiberChurned(): Customer -> bool {
    (c: Customer) => ChurnedWith("DSL")(c) || ChurnedWith("Fiber optic")(c)
  }

  function HasService(service: string): Customer -> bool {
    (c: Customer) => c.internetService == service
  }

  /** Each bar counts churned customers of its own service. */
  lemma InternetChurnRoles(cs: seq<Customer>, i: nat)
    requires i < |InternetServices|
    ensures ChurnByInternetService(cs)[i] <= |Filter(cs, HasService(InternetServices[i]))|
    ensures ChurnByInternetService(cs)[i] <= |Filter(cs, IsChurned)|
  {
    var service := InternetServices[i];
    assert ChurnByInternetService(cs)[i] == |Filter(cs, ChurnedWith(service))|;
    CountMonotone(cs, ChurnedWith(service), HasService(service));
    CountMonotone(cs, ChurnedWith(service), IsChurned);
  }

  /** When every churned customer has one of the three services, the three
      bars together count every churned customer. */
  lemma InternetChurnCovers(cs: seq<Customer>)
    requires forall k :: 0 <= k < |cs| && cs[k].churn == "Yes" ==> cs[k].internetService in InternetServices
    ensures var counts := ChurnByInternetService(cs);
      counts[0] + counts[1] + counts[2] == |Filter(cs, IsChurned)|
  {
    var counts := ChurnByInternetService(cs);
    assert counts[0] == |Filter(cs, ChurnedWith("DSL"))|;
    assert counts[1] == |Filter(cs, ChurnedWith("Fiber optic"))|;
    assert counts[2] == |Filter(cs, ChurnedWith("No"))|;
    PartitionWithin(cs, ChurnedWith("DSL"), ChurnedWith("Fiber optic"), DslOrFiberChurned());
    PartitionWithin(cs, DslOrFiberChurned(), ChurnedWith("No"), IsChurned);
  }
}

=== FILE: encoding.dfy ===
/** The request record and its one-hot encoding: `pd.get_dummies` applied to a
    one-row data frame built from the record. */
module Encoding {
  import opened Fields

  /** A request after type coercion by the endpoint's input model. */
  datatype Record = Record(
    tenure: int,
    monthlyCharges: real,
    totalCharges: real,
    internetService: string,
    onlineSecurity: string,
    onlineBackup: string,
    techSupport: string,
    contract: string,
    paymentMethod: string)
  {
    /** The value of a numeric field. */
    function Number(f: Field): real
      requires f.IsNumeric()
    {
      match f
      case Tenure => tenure as real
      case MonthlyCharges => monthlyCharges
      case TotalCharges => totalCharges
    }

    /** The value of a categorical field. */
    function Text(f: Field): string
      requires !f.IsNumeric()
    {
      match f
      case InternetService => internetService
      case OnlineSecurity => onlineSecurity
      case OnlineBackup => onlineBackup
      case TechSupport => techSupport
      case Contract => contract
      case PaymentMethod => paymentMethod
    }
  }

  /** An encoded row: column name to cell value. */
  type Row = map<string, real>

  /** The indicator column `<field>_<value>`. */
  function Dummy(field: string, value: string): string {
    field + [Separator] + value
  }

  /** The column field `f` of `r` lands in once encoded. */
  function ColumnOf(r: Record, f: Field): string {
    if f.IsNumeric() then f.Name() else Dummy(f.Name(), r.Text(f))
  }

  /** The value stored in that column: the number itself, or the indicator 1. */
  function CellOf(r: Record, f: Field): real {
    if f.IsNumeric() then r.Number(f) else 1.0
  }

  predicate Distinct<T(==)>(xs: seq<T>) {
    forall i, j :: 0 <= i < j < |xs| ==> xs[i] != xs[j]
  }

  /** Encodes the fields `fs` of `r`, one column per field. */
  function EncodeFields(r: Record, fs: seq<Field>): (row: Row)
    requires Distinct(fs)
    ensures forall f :: f in fs ==> ColumnOf(r, f) in row && row[ColumnOf(r, f)] == CellOf(r, f)
    ensures forall k :: k in row ==> exists f :: f in fs && k == ColumnOf(r, f)
    ensures |row| == |fs|
  {
    if fs == [] then map[]
    else
      var rest := EncodeFields(r, fs[1..]);
      ColumnsDistinct(r);
      assert ColumnOf(r, fs[0]) !in rest by {
        forall f | f in fs[1..] ensures ColumnOf(r, f) != ColumnOf(r, fs[0]) {
          assert f != fs[0];
        }
      }
      rest[ColumnOf(r, fs[0]) := CellOf(r, fs[0])]
  }

  /** One-hot encoding of a record: numeric fields keep their name and value,
      each categorical field becomes an indicator column set to 1. */
  function Encode(r: Record): (row: Row)
    ensures forall f: Field :: ColumnOf(r, f) in row && row[ColumnOf(r, f)] == CellOf(r, f)
    ensures forall k :: k in row ==> exists f: Field :: k == ColumnOf(r, f)
    ensures |row| == |InputOrder|
  {
    forall f: Field ensures f in InputOrder {
      InputOrderComplete(f);
    }
    EncodeFields(r, InputOrder)
  }

  /** An indicator column never coincides with a name free of separators. */
  lemma DummyIsNotPlain(field: string, value: string, plain: string)
    requires NoUnderscore(plain)
    ensures Dummy(field, value) != plain
  {
    var d := Dummy(field, value);
    if |plain| > |field| {
      assert d[|field|] == Separator;
      assert plain[|field|] != Separator;
    } else {
      assert |d| > |plain|;
    }
  }

  /** Indicator columns of different separator-free fields never collide,
      whatever the values. */
  lemma DummiesOfDistinctFields(f1: string, v1: string, f2: string, v2: string)
    requires NoUnderscore(f1) && NoUnderscore(f2) && f1 != f2
    ensures Dummy(f1, v1) != Dummy(f2, v2)
  {
    var d1, d2 := Dummy(f1, v1), Dummy(f2, v2);
    if |f1| < |f2| {
      assert d1[|f1|] == Separator && d2[|f1|] == f2[|f1|];
    } else if |f2| < |f1| {
      assert d2[|f2|] == Separator && d1[|f2|] == f1[|f2|];
    } else {
      var i :| 0 <= i < |f1| && f1[i] != f2[i];
      assert d1[i] == f1[i] && d2[i] == f2[i];
    }
  }

  /** Within one field, the indicator column determines the value. */
  lemma DummyInjective(field: string, v1: string, v2: string)
    requires Dummy(field, v1) == Dummy(field, v2)
    ensures v1 == v2
  {
    var n := |field| + 1;
    assert v1 == Dummy(field, v1)[n..];
    assert v2 == Dummy(field, v2)[n..];
  }

  /** Encoding never lets two fields share a column. */
  lemma ColumnsDistinct(r: Record)
    ensures forall f, g: Field :: f != g ==> ColumnOf(r, f) != ColumnOf(r, g)
  {
    forall f: Field, g: Field | f != g
      ensures ColumnOf(r, f) != ColumnOf(r, g)
    {
      NamesWellFormed(f, g);
      NamesWellFormed(g, f);
      if f.IsNumeric() && g.IsNumeric() {
      } else if f.IsNumeric() {
        DummyIsNotPlain(g.Name(), r.Text(g), f.Name());
      } else if g.IsNumeric() {
        DummyIsNotPlain(f.Name(), r.Text(f), g.Name());
      } else {
        DummiesOfDistinctFields(f.Name(), r.Text(f), g.Name(), r.Text(g));
      }
    }
  }

}

=== FILE: fields.dfy ===
/** The nine input fields of a churn request, shared by the prediction
    endpoint, the request validator and the persistence schema. */
module Fields {

  datatype Field =
    | Tenure | MonthlyCharges | TotalCharges
    | InternetService | OnlineSecurity | OnlineBackup | TechSupport | Contract | PaymentMethod
  {
    /** The JSON key (and data-frame column) naming this field. */
    function Name(): string {
      match this
      case Tenure => "tenure"
      case MonthlyCharges => "MonthlyCharges"
      case TotalCharges => "TotalCharges"
      case InternetService => "InternetService"
      case OnlineSecurity => "OnlineSecurity"
      case OnlineBackup => "OnlineBackup"
      case TechSupport => "TechSupport"
      case Contract => "Contract"
      case PaymentMethod => "PaymentMethod"
    }

    /** Numeric fields keep their own column when one-hot encoded. */
    predicate IsNumeric() {
      Tenure? || MonthlyCharges? || TotalCharges?
    }
  }

  /** The fields in declaration order, which is also the order the
      validator checks them in. */
  const InputOrder: seq<Field> := [
    Tenure, MonthlyCharges, TotalCharges,
    InternetService, OnlineSecurity, OnlineBackup, TechSupport, Contract, PaymentMethod
  ]

  /** The character `get_dummies` puts between a field and its value. */
  const Separator: char := '_'

  predicate NoUnderscore(s: string) {
    Separator !in s
  }

  lemma InputOrderComplete(f: Field)
    ensures f in InputOrder
  {
  }

  /** No field name contains the one-hot separator, and distinct fields have
      distinct names. */
  lemma NamesWellFormed(f: Field, g: Field)
    ensures NoUnderscore(f.Name())
    ensures f != g ==> f.Name() != g.Name()
  {
  }
}

=== FILE: folds.dfy ===
/** `filter`, `filter(...).length` and summing `reduce` over sequences, with
    the counting and summing facts the dashboard relies on. */
module Folds {

  /** The elements of `s` satisfying `p`, in order. */
  function Filter<T>(s: seq<T>, p: T -> bool): (r: seq<T>)
    ensures |r| <= |s|
    ensures forall x :: x in r ==> x in s && p(x)
    ensures forall x :: x in s && p(x) ==> x in r
  {
    if s == [] then []
    else (if p(s[0]) then [s[0]] else []) + Filter(s[1..], p)
  }

  /** A filter keeps every satisfying element as often as it occurs, and
      nothing else: `.length` of a filter counts occurrences, not values. */
  lemma {:induction false} FilterMultiplicity<T>(s: seq<T>, p: T -> bool)
    ensures multiset(Filter(s, p)) <= multiset(s)
    ensures forall x :: p(x) ==> multiset(Filter(s, p))[x] == multiset(s)[x]
    ensures forall x :: !p(x) ==> multiset(Filter(s, p))[x] == 0
  {
    if s != [] {
      FilterMultiplicity(s[1..], p);
      assert s == [s[0]] + s[1..];
      assert multiset(s) == multiset{s[0]} + multiset(s[1..]);
    }
  }

  /** `s.reduce((sum, x) => sum + f(x), 0)`, in exact arithmetic. */
  function Sum<T>(s: seq<T>, f: T -> real): real {
    if s == [] then 0.0 else f(s[0]) + Sum(s[1..], f)
  }

  /** Two filters that no element satisfies together, both inside a third,
      count no more than the third. */
  lemma {:induction false} DisjointCounts<T>(s: seq<T>, p: T -> bool, q: T -> bool, within: T -> bool)
    requires forall i :: 0 <= i < |s| ==> !(p(s[i]) && q(s[i]))
    requires forall i :: 0 <= i < |s| && (p(s[i]) || q(s[i])) ==> within(s[i])
    ensures |Filter(s, p)| + |Filter(s, q)| <= |Filter(s, within)|
  {
    if s != [] {
      DisjointCounts(s[1..], p, q, within);
    }
  }

  /** Two filters that split every element between them count the whole
      sequence. */
  lemma {:induction false} PartitionCounts<T>(s: seq<T>, p: T -> bool, q: T -> bool)
    requires forall i :: 0 <= i < |s| ==> p(s[i]) != q(s[i])
    ensures |Filter(s, p)| + |Filter(s, q)| == |s|
  {
    if s != [] {
      PartitionCounts(s[1..], p, q);
    }
  }

  /** Two filters that split exactly the elements of a third between them
      count as much as the third. */
  lemma {:induction false} PartitionWithin<T>(s: seq<T>, p: T -> bool, q: T -> bool, w: T -> bool)
    requires forall i :: 0 <= i < |s| ==> !(p(s[i]) && q(s[i]))
    requires forall i :: 0 <= i < |s| ==> (p(s[i]) || q(s[i])) == w(s[i])
    ensures |Filter(s, p)| + |Filter(s, q)| == |Filter(s, w)|
  {
    if s != [] {
      PartitionWithin(s[1..], p, q, w);
    }
  }

  /** A filter every element satisfies keeps the whole sequence. */
  lemma {:induction false} FilterAll<T>(s: seq<T>, p: T -> bool)
    requires forall i :: 0 <= i < |s| ==> p(s[i])
    ensures Filter(s, p) == s
  {
    if s != [] {
      FilterAll(s[1..], p);
    }
  }

  /** A filter no element satisfies keeps nothing. */
  lemma {:induction false} FilterNone<T>(s: seq<T>, p: T -> bool)
    requires forall i :: 0 <= i < |s| ==> !p(s[i])
    ensures Filter(s, p) == []
  {
    if s != [] {
      FilterNone(s[1..], p);
    }
  }

  /** Filters that agree on every element keep the same elements. */
  lemma {:induction false} FilterAgree<T>(s: seq<T>, p: T -> bool, q: T -> bool)
    requires forall i :: 0 <= i < |s| ==> p(s[i]) == q(s[i])
    ensures Filter(s, p) == Filter(s, q)
  {
    if s != [] {
      FilterAgree(s[1..], p, q);
    }
  }

  /** A stronger filter keeps no more elements. */
  lemma {:induction false} CountMonotone<T>(s: seq<T>, p: T -> bool, q: T -> bool)
    requires forall i :: 0 <= i < |s| && p(s[i]) ==> q(s[i])
    ensures |Filter(s, p)| <= |Filter(s, q)|
  {
    if s != [] {
      CountMonotone(s[1..], p, q);
    }
  }

  /** With non-negative terms, a stronger filter sums to no more. */
  lemma {:induction false} SumMonotone<T>(s: seq<T>, p: T -> bool, q: T -> bool, f: T -> real)
    requires forall i :: 0 <= i < |s| ==> f(s[i]) >= 0.0
    requires forall i :: 0 <= i < |s| && p(s[i]) ==> q(s[i])
    ensures Sum(Filter(s, p), f) <= Sum(Filter(s, q), f)
  {
    if s != [] {
      SumMonotone(s[1..], p, q, f);
      FilterHead(s, p);
      FilterHead(s, q);
    }
  }

  lemma FilterHead<T>(s: seq<T>, p: T -> bool)
    requires s != []
    ensures Filter(s, p) == if p(s[0]) then [s[0]] + Filter(s[1..], p) else Filter(s[1..], p)
  {
  }

  /** A sum of terms each within [lo, hi] lies within [|s| * lo, |s| * hi]. */
  lemma {:induction false} SumBounds<T>(s: seq<T>, f: T -> real, lo: real, hi: real)
    requires forall x :: x in s ==> lo <= f(x) <= hi
    ensures |s| as real * lo <= Sum(s, f) <= |s| as real * hi
  {
    if s != [] {
      SumBounds(s[1..], f, lo, hi);
      assert s[0] in s;
    }
  }
}

=== FILE: inference.dfy ===
/** The prediction endpoint: encode, align, score, threshold and round. */
module Inference {
  import opened Encoding
  import opened Alignment

  /** The decision cut-off, fixed by the endpoint. */
  const Threshold: real := 0.355

  type Probability = p: real | 0.0 <= p <= 1.0

  /** The trained classifier's probability of the churn class for an aligned
      single-row frame. It is loaded once at startup and never changes, so it
      is an argument here. */
  type Scorer = seq<Column> -> Probability

  datatype Response = Response(prediction: int, probability: real, threshold: real)

  /** A real with at most four decimal places. */
  predicate FourDecimals(x: real) {
    (x * 10000.0).Floor as real == x * 10000.0
  }

  /** Rounding to four decimal places, ties to the even last digit, applied
      to the exact value. */
  function Round4(p: real): (r: real)
    ensures FourDecimals(r)
    ensures -0.00005 <= r - p <= 0.00005
    ensures 0.0 <= p <= 1.0 ==> 0.0 <= r <= 1.0
    ensures FourDecimals(p) ==> r == p
    ensures var s := p * 10000.0; s - s.Floor as real == 0.5 ==> (r * 10000.0).Floor % 2 == 0
  {
    var scaled := p * 10000.0;
    var low := scaled.Floor;
    var frac := scaled - low as real;
    var n := if frac < 0.5 then low
             else if frac > 0.5 then low + 1
             else if low % 2 == 0 then low
             else low + 1;
    assert 0.0 <= p <= 1.0 ==> 0 <= low <= 10000;
    n as real / 10000.0
  }

  /** `int(prob > threshold)`. */
  function Decide(prob: real): int {
    if prob > Threshold then 1 else 0
  }

  /** The aligned feature vector of a record. */
  function Features(r: Record, featureNames: seq<string>): (v: seq<Column>)
    ensures |v| == |featureNames|
    ensures forall i :: 0 <= i < |v| ==> v[i].name == featureNames[i]
  {
    Align(Encode(r), featureNames).columns
  }

  /** The endpoint. The decision is taken on the unrounded probability; the
      response reports the rounded one together with the fixed threshold. */
  function Predict(r: Record, featureNames: seq<string>, model: Scorer): (resp: Response)
    ensures resp.threshold == 0.355
    ensures resp.prediction == 0 || resp.prediction == 1
    ensures resp.prediction == 1 <==> model(Features(r, featureNames)) > 0.355
    ensures 0.0 <= resp.probability <= 1.0 && FourDecimals(resp.probability)
    ensures -0.00005 <= resp.probability - model(Features(r, featureNames)) <= 0.00005
    ensures resp.probability == Round4(model(Features(r, featureNames)))
  {
    var prob := model(Features(r, featureNames));
    Response(Decide(prob), Round4(prob), Threshold)
  }

  /** The response can predict churn while its rounded probability does not
      exceed its threshold: an unrounded 0.35504 is reported as 0.355. */
  lemma RoundedProbabilityCanEqualThreshold(r: Record, featureNames: seq<string>)
    ensures var resp := Predict(r, featureNames, _ => 0.35504);
      resp.prediction == 1 && resp.probability == resp.threshold
  {
    var scaled := 0.35504 * 10000.0;
    assert scaled == 3550.4;
    assert scaled.Floor == 3550;
  }
}

=== FILE: json.dfy ===
/** Parsed JSON request bodies as seen by the Express layer. A key that is
    absent from the object reads as `undefined`. */
module Json {

  datatype Value =
    | Undefined
    | Null
    | Bool(b: bool)
    | Num(n: real)
    | Str(s: string)
    | Composite   // an array or nested object; its contents never matter here

  type Body = map<string, Value>

  /** `body[key]` in JavaScript. */
  function Get(body: Body, key: string): Value {
    if key in body then body[key] else Undefined
  }

  /** `body[key] !== undefined`. */
  predicate IsDefined(body: Body, key: string) {
    Get(body, key) != Undefined
  }
}

=== FILE: middleware.dfy ===
/** The Express validator in front of the prediction proxy: it checks the
    required fields in a fixed order and rejects the request naming the first
    one that is `undefined`; otherwise it passes control on. */
module Middleware {
  import opened Fields
  import opened Json

  datatype Outcome =
    | Next                                  // `next()` is called
    | Reject(status: int, error: string)    // `res.status(status).json({ error })`

  /** The required keys, in checking order. */
  function RequiredFields(): (keys: seq<string>)
    ensures keys == ["tenure", "MonthlyCharges", "TotalCharges", "InternetService",
      "OnlineSecurity", "OnlineBackup", "TechSupport", "Contract", "PaymentMethod"]
  {
    seq(|InputOrder|, i requires 0 <= i < |InputOrder| => InputOrder[i].Name())
  }

  /** The required keys follow the field order. */
  lemma RequiredFieldsInOrder()
    ensures |RequiredFields()| == |InputOrder|
    ensures forall i :: 0 <= i < |InputOrder| ==> RequiredFields()[i] == InputOrder[i].Name()
  {
  }

  function MissingMessage(key: string): string {
    key + " is required."
  }

  datatype Scan = AllPresent | MissingAt(index: nat)

  /** The index of the first key of `keys` that `body` leaves undefined. */
  function FirstMissing(body: Body, keys: seq<string>): (r: Scan)
    ensures r.MissingAt? ==>
      && r.index < |keys|
      && !IsDefined(body, keys[r.index])
      && forall j :: 0 <= j < r.index ==> IsDefined(body, keys[j])
    ensures r.AllPresent? <==> forall j :: 0 <= j < |keys| ==> IsDefined(body, keys[j])
  {
    if keys == [] then AllPresent
    else if !IsDefined(body, keys[0]) then MissingAt(0)
    else match FirstMissing(body, keys[1..])
      case AllPresent => AllPresent
      case MissingAt(k) => MissingAt(k + 1)
  }

  /** The validator. */
  function ValidateChurnInput(body: Body): (o: Outcome)
    ensures o.Next? <==> forall f: Field :: IsDefined(body, f.Name())
    ensures o.Reject? ==> exists i ::
      && 0 <= i < |InputOrder|
      && !IsDefined(body, InputOrder[i].Name())
      && (forall j :: 0 <= j < i ==> IsDefined(body, InputOrder[j].Name()))
      && o == Reject(400, MissingMessage(InputOrder[i].Name()))
  {
    var keys := RequiredFields();
    RequiredFieldsInOrder();
    match FirstMissing(body, keys)
    case AllPresent =>
      assert forall f: Field :: IsDefined(body, f.Name()) by {
        forall f: Field ensures IsDefined(body, f.Name()) {
          InputOrderComplete(f);
          var j :| 0 <= j < |InputOrder| && InputOrder[j] == f;
          assert keys[j] == f.Name();
        }
      }
      Next
    case MissingAt(i) =>
      Reject(400, MissingMessage(keys[i]))
  }

  /** Only definedness is checked: two bodies that agree on which required
      keys are defined get the same outcome, whatever the values (`null`, a
      wrong type) and whatever other keys they carry. */
  lemma {:induction false} OnlyPresenceMatters(b1: Body, b2: Body)
    requires forall f: Field :: IsDefined(b1, f.Name()) == IsDefined(b2, f.Name())
    ensures ValidateChurnInput(b1) == ValidateChurnInput(b2)
  {
    var keys := RequiredFields();
    RequiredFieldsInOrder();
    forall i | 0 <= i < |keys| ensures IsDefined(b1, keys[i]) == IsDefined(b2, keys[i]) {
      assert keys[i] == InputOrder[i].Name();
    }
    FirstMissingAgrees(b1, b2, keys);
  }

  lemma {:induction false} FirstMissingAgrees(b1: Body, b2: Body, keys: seq<string>)
    requires forall i :: 0 <= i < |keys| ==> IsDefined(b1, keys[i]) == IsDefined(b2, keys[i])
    ensures FirstMissing(b1, keys) == FirstMissing(b2, keys)
  {
    if keys != [] {
      FirstMissingAgrees(b1, b2, keys[1..]);
    }
  }

  /** A request without a body is rejected for its first required key. */
  lemma EmptyBodyNamesTenure()
    ensures ValidateChurnInput(map[]) == Reject(400, "tenure is required.")
  {
    assert !IsDefined(map[], RequiredFields()[0]);
  }
}

=== FILE: navbar.dfy ===
/** The navigation bar's page title, recomputed from the URL at the end of
    every navigation. */
module Navbar {

  datatype RouterEvent =
    | NavigationEnd(url: string)
    | OtherEvent   // navigation start, guards, resolvers, errors, ...

  const InitialTitle: string := ""

  /** `s.startsWith(sub)`. */
  predicate StartsWith(s: string, sub: string) {
    |sub| <= |s| && s[..|sub|] == sub
  }

  /** `s.includes(sub)`: tries every start position from the left. */
  predicate Includes(s: string, sub: string)
    decreases |s|
  {
    StartsWith(s, sub) || (s != [] && Includes(s[1..], sub))
  }

  /** `sub` occurs in `s` at some position. */
  ghost predicate OccursAt(s: string, sub: string, i: int) {
    0 <= i && i + |sub| <= |s| && s[i..i + |sub|] == sub
  }

  /** The scan finds `sub` exactly when it occurs somewhere in `s`. */
  lemma {:induction false} IncludesIffOccurs(s: string, sub: string)
    ensures Includes(s, sub) <==> exists i :: OccursAt(s, sub, i)
  {
    if StartsWith(s, sub) {
      assert OccursAt(s, sub, 0);
    } else if s == [] {
      forall i ensures !OccursAt(s, sub, i) {
      }
    } else {
      IncludesIffOccurs(s[1..], sub);
      forall i | OccursAt(s[1..], sub, i) ensures OccursAt(s, sub, i + 1) {
        assert s[i + 1..i + 1 + |sub|] == s[1..][i..i + |sub|];
      }
      assert !OccursAt(s, sub, 0);
      forall i | OccursAt(s, sub, i) ensures OccursAt(s[1..], sub, i - 1) {
        assert i != 0;
        assert s[1..][i - 1..i - 1 + |sub|] == s[i..i + |sub|];
      }
    }
  }

  /** The title for a URL: "dashboard" anywhere in it wins over "model",
      and anything else is the project name. */
  function TitleFor(url: string): (title: string)
    ensures (exists i :: OccursAt(url, "dashboard", i)) ==> title == "Dashboard"
    ensures (forall i :: !OccursAt(url, "dashboard", i)) && (exists i :: OccursAt(url, "model", i))
      ==> title == "Model"
    ensures (forall i :: !OccursAt(url, "dashboard", i)) && (forall i :: !OccursAt(url, "model", i))
      ==> title == "Telecom Project"
  {
    IncludesIffOccurs(url, "dashboard");
    IncludesIffOccurs(url, "model");
    if Includes(url, "dashboard") then "Dashboard"
    else if Includes(url, "model") then "Model"
    else "Telecom Project"
  }

  /** The subscription's reaction to one router event. */
  function OnEvent(title: string, e: RouterEvent): string {
    match e
    case NavigationEnd(url) => TitleFor(url)
    case OtherEvent => title
  }

  /** The title after a stream of router events, starting from the initial
      empty title. */
  function TitleAfter(events: seq<RouterEvent>): string {
    if events == [] then InitialTitle
    else OnEvent(TitleAfter(events[..|events| - 1]), events[|events| - 1])
  }

  /** Event `i` is the last completed navigation of the stream. */
  ghost predicate IsLastNavigation(events: seq<RouterEvent>, i: int) {
    && 0 <= i < |events|
    && events[i].NavigationEnd?
    && forall j :: i < j < |events| ==> events[j].OtherEvent?
  }

  /** The title shows the URL of the last completed navigation; later events
      of other kinds leave it alone. */
  lemma {:induction false} TitleFollowsLastNavigation(events: seq<RouterEvent>, i: int)
    requires IsLastNavigation(events, i)
    ensures TitleAfter(events) == TitleFor(events[i].url)
  {
    var init := events[..|events| - 1];
    if i < |events| - 1 {
      assert IsLastNavigation(init, i);
      TitleFollowsLastNavigation(init, i);
    }
  }

  /** Until a navigation completes the title stays empty. */
  lemma {:induction false} TitleEmptyBeforeNavigation(events: seq<RouterEvent>)
    requires forall i :: 0 <= i < |events| ==> events[i].OtherEvent?
    ensures TitleAfter(events) == ""
  {
    if events != [] {
      TitleEmptyBeforeNavigation(events[..|events| - 1]);
    }
  }

  /** Every title the bar can show. */
  lemma {:induction false} TitleRange(events: seq<RouterEvent>)
    ensures TitleAfter(events) in {"", "Dashboard", "Model", "Telecom Project"}
  {
    if events != [] {
      TitleRange(events[..|events| - 1]);
    }
  }
}

=== FILE: schema.dfy ===
/** The persistence schema of a churn request: all nine paths are required,
    three are numbers and six are strings drawn from closed enumerations. */
module Schema {
  import opened Fields
  import opened Json
  import opened Encoding
  import Inference
  import Middleware

  /** The allowed values of each string path; numeric paths have none. */
  function Enum(f: Field): seq<string> {
    match f
    case InternetService => ["DSL", "Fiber optic", "No"]
    case OnlineSecurity => ["No", "Yes", "No internet service"]
    case OnlineBackup => ["No", "Yes", "No internet service"]
    case TechSupport => ["No", "Yes", "No internet service"]
    case Contract => ["Month-to-month", "One year", "Two year"]
    case PaymentMethod =>
      ["Electronic check", "Mailed check", "Bank transfer (automatic)", "Credit card (automatic)"]
    case _ => []
  }

  datatype PathError =
    | Required(path: string)
    | CastError(path: string)
    | NotInEnum(path: string, value: string)

  datatype Check = Ok | Fail(error: PathError)

  /** What the schema admits on one path: a number on a numeric path, one of
      the enumerated strings on a string path. */
  predicate WellTypedPath(doc: Body, f: Field) {
    if f.IsNumeric() then Get(doc, f.Name()).Num?
    else Get(doc, f.Name()).Str? && Get(doc, f.Name()).s in Enum(f)
  }

  /** Validation of one path: `required` first (an absent value, `null`, or
      an empty string on a string path fails it), then the type, then the
      enumeration. */
  function CheckPath(doc: Body, f: Field): (c: Check)
    ensures c.Ok? <==> WellTypedPath(doc, f)
    ensures c.Fail? ==> c.error.path == f.Name()
    ensures Get(doc, f.Name()) in {Undefined, Null} ==> c == Fail(Required(f.Name()))
  {
    var path := f.Name();
    match Get(doc, path)
    case Undefined => Fail(Required(path))
    case Null => Fail(Required(path))
    case Num(_) => if f.IsNumeric() then Ok else Fail(CastError(path))
    case Str(s) =>
      if f.IsNumeric() then Fail(CastError(path))
      else if s == "" then Fail(Required(path))
      else if s in Enum(f) then Ok
      else Fail(NotInEnum(path, s))
    case _ => Fail(CastError(path))
  }

  /** The errors of the paths `fs`, in path order. */
  function {:induction false} CollectErrors(doc: Body, fs: seq<Field>): (errs: seq<PathError>)
    ensures |errs| <= |fs|
    ensures errs == [] <==> forall f :: f in fs ==> CheckPath(doc, f).Ok?
    ensures forall f :: f in fs && CheckPath(doc, f).Fail? ==> CheckPath(doc, f).error in errs
    ensures (forall f :: f in fs ==> CheckPath(doc, f).Fail?) ==> |errs| == |fs|
    ensures forall e :: e in errs ==> exists f :: f in fs && CheckPath(doc, f) == Fail(e)
  {
    if fs == [] then []
    else
      var rest := CollectErrors(doc, fs[1..]);
      assert forall f :: f in fs ==> f == fs[0] || f in fs[1..];
      match CheckPath(doc, fs[0])
      case Ok => rest
      case Fail(e) => [e] + rest
  }

  /** Document validation: the errors of the failing paths, none when valid. */
  function Validate(doc: Body): (errs: seq<PathError>)
    ensures |errs| <= |InputOrder|
    ensures errs == [] <==> forall f: Field :: CheckPath(doc, f).Ok?
    ensures forall f: Field :: CheckPath(doc, f).Fail? ==> CheckPath(doc, f).error in errs
    ensures (forall f: Field :: CheckPath(doc, f).Fail?) ==> |errs| == |InputOrder|
    ensures forall e :: e in errs ==> exists f: Field :: CheckPath(doc, f) == Fail(e)
  {
    forall f: Field ensures f in InputOrder {
      InputOrderComplete(f);
    }
    CollectErrors(doc, InputOrder)
  }

  predicate Valid(doc: Body) {
    Validate(doc) == []
  }

  /** No two errors concern the same path. */
  predicate PathsDistinct(errs: seq<PathError>) {
    forall i, j :: 0 <= i < j < |errs| ==> errs[i].path != errs[j].path
  }

  /** Errors are keyed by path: checking distinct fields reports each failing
      path once. */
  lemma {:induction false} ErrorsOnePerPath(doc: Body, fs: seq<Field>)
    requires Distinct(fs)
    ensures PathsDistinct(CollectErrors(doc, fs))
  {
    if fs != [] {
      var rest := CollectErrors(doc, fs[1..]);
      assert Distinct(fs[1..]) by {
        forall i, j | 0 <= i < j < |fs[1..]| ensures fs[1..][i] != fs[1..][j] {
          assert fs[1..][i] == fs[i + 1] && fs[1..][j] == fs[j + 1];
        }
      }
      ErrorsOnePerPath(doc, fs[1..]);
      match CheckPath(doc, fs[0])
      case Ok =>
      case Fail(e) =>
        forall x | x in rest ensures x.path != e.path {
          var g :| g in fs[1..] && CheckPath(doc, g) == Fail(x);
          var k :| 0 <= k < |fs[1..]| && fs[1..][k] == g;
          assert fs[k + 1] == g && fs[0] != g;
          NamesWellFormed(fs[0], g);
        }
        ConsPathsDistinct(e, rest);
    }
  }

  lemma ConsPathsDistinct(e: PathError, rest: seq<PathError>)
    requires PathsDistinct(rest)
    requires forall x :: x in rest ==> x.path != e.path
    ensures PathsDistinct([e] + rest)
  {
    var errs := [e] + rest;
    forall i, j | 0 <= i < j < |errs| ensures errs[i].path != errs[j].path {
      assert errs[j] == rest[j - 1];
      if i > 0 {
        assert errs[i] == rest[i - 1];
      } else {
        assert rest[j - 1] in rest;
      }
    }
  }

  /** A document's errors name each failing path exactly once. */
  lemma ValidateOnePerPath(doc: Body)
    ensures PathsDistinct(Validate(doc))
  {
    assert Distinct(InputOrder) by {
      forall i, j | 0 <= i < j < |InputOrder| ensures InputOrder[i] != InputOrder[j] {
        NamesWellFormed(InputOrder[i], InputOrder[j]);
      }
    }
    ErrorsOnePerPath(doc, InputOrder);
  }

  /** The schema accepts a document exactly when every one of the nine paths
      holds what it admits. */
  lemma ValidIffWellTyped(doc: Body)
    ensures Valid(doc) <==> forall f: Field :: WellTypedPath(doc, f)
  {
    forall f: Field ensures CheckPath(doc, f).Ok? <==> WellTypedPath(doc, f) {
    }
  }

  /** A complete, well-typed document, like the ones the prediction form
      sends, is accepted. */
  lemma SampleDocumentValid()
    ensures Valid(SampleDocument())
  {
    var doc := SampleDocument();
    forall f: Field ensures WellTypedPath(doc, f) {
      match f
      case Tenure => assert Get(doc, "tenure") == Num(12.0);
      case MonthlyCharges => assert Get(doc, "MonthlyCharges") == Num(70.35);
      case TotalCharges => assert Get(doc, "TotalCharges") == Num(844.2);
      case InternetService =>
        assert Get(doc, "InternetService") == Str("Fiber optic");
        assert Enum(f)[1] == "Fiber optic";
      case OnlineSecurity =>
        assert Get(doc, "OnlineSecurity") == Str("No");
        assert Enum(f)[0] == "No";
      case OnlineBackup =>
        assert Get(doc, "OnlineBackup") == Str("Yes");
        assert Enum(f)[1] == "Yes";
      case TechSupport =>
        assert Get(doc, "TechSupport") == Str("No internet service");
        assert Enum(f)[2] == "No internet service";
      case Contract =>
        assert Get(doc, "Contract") == Str("Month-to-month");
        assert Enum(f)[0] == "Month-to-month";
      case PaymentMethod =>
        assert Get(doc, "PaymentMethod") == Str("Electronic check");
        assert Enum(f)[0] == "Electronic check";
    }
    ValidIffWellTyped(doc);
  }

  function SampleDocument(): Body {
    map[
      "tenure" := Num(12.0), "MonthlyCharges" := Num(70.35), "TotalCharges" := Num(844.2),
      "InternetService" := Str("Fiber optic"), "OnlineSecurity" := Str("No"),
      "OnlineBackup" := Str("Yes"), "TechSupport" := Str("No internet service"),
      "Contract" := Str("Month-to-month"), "PaymentMethod" := Str("Electronic check")]
  }

  /** Every path is required: leaving any of the nine out invalidates the
      document and reports that path. */
  lemma MissingPathInvalid(doc: Body, f: Field)
    requires !IsDefined(doc, f.Name())
    ensures Required(f.Name()) in Validate(doc)
    ensures !Valid(doc)
  {
    assert CheckPath(doc, f) == Fail(Required(f.Name()));
  }

  /** The three numeric paths of a valid document hold numbers. */
  lemma ValidNumbers(doc: Body)
    requires Valid(doc)
    ensures forall f: Field :: f.IsNumeric() ==> Get(doc, f.Name()).Num?
  {
    forall f: Field | f.IsNumeric() ensures Get(doc, f.Name()).Num? {
      assert CheckPath(doc, f).Ok?;
    }
  }

  lemma ValidInternetService(doc: Body)
    requires Valid(doc)
    ensures Get(doc, "InternetService").Str?
      && Get(doc, "InternetService").s in {"DSL", "Fiber optic", "No"}
  {
    assert CheckPath(doc, InternetService).Ok?;
    var s := Get(doc, InternetService.Name()).s;
    assert s == Enum(InternetService)[0] || s == Enum(InternetService)[1]
      || s == Enum(InternetService)[2];
  }

  /** The three add-on services share one domain. */
  lemma ValidAddOns(doc: Body)
    requires Valid(doc)
    ensures forall f: Field :: f in {OnlineSecurity, OnlineBackup, TechSupport} ==>
      Get(doc, f.Name()).Str? && Get(doc, f.Name()).s in {"No", "Yes", "No internet service"}
  {
    forall f: Field | f in {OnlineSecurity, OnlineBackup, TechSupport}
      ensures Get(doc, f.Name()).Str? && Get(doc, f.Name()).s in {"No", "Yes", "No internet service"}
    {
      assert CheckPath(doc, f).Ok?;
      assert Enum(f) == ["No", "Yes", "No internet service"];
      var s := Get(doc, f.Name()).s;
      assert s == Enum(f)[0] || s == Enum(f)[1] || s == Enum(f)[2];
    }
  }

  lemma ValidContract(doc: Body)
    requires Valid(doc)
    ensures Get(doc, "Contract").Str?
      && Get(doc, "Contract").s in {"Month-to-month", "One year", "Two year"}
  {
    assert CheckPath(doc, Contract).Ok?;
    var s := Get(doc, Contract.Name()).s;
    assert s == Enum(Contract)[0] || s == Enum(Contract)[1] || s == Enum(Contract)[2];
  }

  lemma ValidPaymentMethod(doc: Body)
    requires Valid(doc)
    ensures Get(doc, "PaymentMethod").Str? && Get(doc, "PaymentMethod").s in
      {"Electronic check", "Mailed check", "Bank transfer (automatic)", "Credit card (automatic)"}
  {
    assert CheckPath(doc, PaymentMethod).Ok?;
    var s := Get(doc, PaymentMethod.Name()).s;
    assert s == Enum(PaymentMethod)[0] || s == Enum(PaymentMethod)[1]
      || s == Enum(PaymentMethod)[2] || s == Enum(PaymentMethod)[3];
  }

  /** A document the schema accepts also passes the request validator. */
  lemma ValidPassesMiddleware(doc: Body)
    requires Valid(doc)
    ensures Middleware.ValidateChurnInput(doc) == Middleware.Next
  {
    forall f: Field ensures IsDefined(doc, f.Name()) {
      assert CheckPath(doc, f).Ok?;
    }
  }

  /** The validator is strictly weaker than the schema: a body whose nine
      keys are all `null` passes it, yet every path fails `required`. */
  lemma NullsPassMiddlewareOnly()
    ensures var doc := AllNull();
      Middleware.ValidateChurnInput(doc) == Middleware.Next
      && |Validate(doc)| == |InputOrder|
  {
    var doc := AllNull();
    forall f: Field ensures Get(doc, f.Name()) == Null {
      match f
      case Tenure =>
      case MonthlyCharges =>
      case TotalCharges =>
      case InternetService =>
      case OnlineSecurity =>
      case OnlineBackup =>
      case TechSupport =>
      case Contract =>
      case PaymentMethod =>
    }
  }

  function AllNull(): Body {
    map[
      "tenure" := Null, "MonthlyCharges" := Null, "TotalCharges" := Null,
      "InternetService" := Null, "OnlineSecurity" := Null, "OnlineBackup" := Null,
      "TechSupport" := Null, "Contract" := Null, "PaymentMethod" := Null]
  }

  // ---- Records and the columns they can produce ----

  /** A typed record whose categorical values lie in the schema's domains. */
  predicate ValidRecord(r: Record) {
    forall f: Field :: !f.IsNumeric() ==> r.Text(f) in Enum(f)
  }

  /** The columns a valid record can produce: the numeric names and one
      indicator per enumerated value. */
  predicate IsDomainColumn(k: string) {
    || (exists f: Field :: f.IsNumeric() && k == f.Name())
    || (exists f: Field, v :: !f.IsNumeric() && v in Enum(f) && k == Dummy(f.Name(), v))
  }

  /** A valid record's encoding stays within the domain columns. */
  lemma ValidRecordColumns(r: Record)
    requires ValidRecord(r)
    ensures forall k :: k in Encode(r) ==> IsDomainColumn(k)
  {
    forall k | k in Encode(r) ensures IsDomainColumn(k) {
      var f: Field :| k == ColumnOf(r, f);
      if !f.IsNumeric() {
        assert r.Text(f) in Enum(f);
      }
    }
  }

  /** For each categorical field a valid record switches on the indicator of
      its own value and of no other value of that field. */
  lemma ValidRecordIndicators(r: Record, f: Field, v: string)
    requires ValidRecord(r) && !f.IsNumeric() && v in Enum(f)
    ensures Dummy(f.Name(), v) in Encode(r) <==> v == r.Text(f)
  {
    var row := Encode(r);
    if Dummy(f.Name(), v) in row {
      var g: Field :| Dummy(f.Name(), v) == ColumnOf(r, g);
      NamesWellFormed(f, g);
      NamesWellFormed(g, f);
      if g.IsNumeric() {
        DummyIsNotPlain(f.Name(), v, g.Name());
      } else if g != f {
        DummiesOfDistinctFields(f.Name(), v, g.Name(), r.Text(g));
      } else {
        DummyInjective(f.Name(), v, r.Text(f));
      }
    } else {
      assert ColumnOf(r, f) in row;
    }
  }

  /** In the aligned vector of a valid record, a feature naming no domain
      column, or the indicator of another value of one of its fields, is 0. */
  lemma UnrelatedFeaturesAreZero(r: Record, featureNames: seq<string>, i: nat)
    requires ValidRecord(r) && i < |featureNames|
    requires !IsDomainColumn(featureNames[i])
      || exists f: Field, v :: !f.IsNumeric() && v in Enum(f) && v != r.Text(f)
                              && featureNames[i] == Dummy(f.Name(), v)
    ensures Inference.Features(r, featureNames)[i].value == 0.0
  {
    ValidRecordColumns(r);
    if IsDomainColumn(featureNames[i]) {
      var f: Field, v :| !f.IsNumeric() && v in Enum(f) && v != r.Text(f)
                         && featureNames[i] == Dummy(f.Name(), v);
      ValidRecordIndicators(r, f, v);
    }
    assert featureNames[i] !in Encode(r);
  }
}
